=== FILE: README.md ===
# Explainor, modelled in Dafny

Explainor explains a topic in the voice of a chosen character. One search
against the DuckDuckGo instant-answer API gathers the research, one chat
completion on Nebius turns it into an explanation, and the web front end
shows four things: the explanation, the sources, a log of the pipeline's
steps and a table of the tools used. Another button is meant to read the
text aloud in the persona's voice.

This project is a functional model of the data-shaping core of that
program. The modules follow the program's structure:

- `Search` (`search.dfy`) builds the result list of `web_search` from a
  decoded response. It takes the abstract first, then the usable entries
  among the first three related topics, and falls back to one synthetic
  "General Knowledge" result.
- `Research` (`research.dfy`) models `research_topic`: a numbered research
  text and the order-preserving list of the results that carry a URL.
- `Llm` (`llm.dfy`) models the `NEBIUS_API_KEY` check and `call_llm`, with
  the completion service as a parameter.
- `Personas` (`personas.dfy`) holds the six-entry catalogue, with
  `get_persona_names` and `get_persona` falling back to the "5-Year-Old"
  entry.
- `Agent` (`agent.dfy`) models `run_agent` as a finite event sequence.
  There are four steps in a fixed order, then one result event. When the
  completion fails, the sequence stops after the steps and the failure is
  raised.
- `Formatting` (`formatting.dfy`) models `format_sources` and
  `format_mcp_tools`.
- `App` (`app.py` handlers, `app.dfy`) models:
  - `explain_topic`: the blank-topic guard, the persona default and the fold
    over the event stream;
  - `generate_audio`, up to the choice of voice;
  - the dropdown-label parsing of the two click handlers.
- `Text` (`text.dfy`) and `Wrappers` (`wrappers.dfy`) are shared helpers:
  - Python string operations: `str.strip`, `in`, `split(" ", 1)`, slicing
    and decimal rendering;
  - the `enumerate(…, 1)` accumulation loop;
  - `Option` and `Result`.

All outside effects are parameters of the model:

- The search response is a `Fetched` value: a decoded response, or a
  failure that stands for any exception the request or decoding raised.
- The environment's API key is an `Option<string>`.
- The completion service is a function from the key and the request to a
  `Completion`: text, an HTTP error status, or a broken call.

## Model

| member | source | states |
|---|---|---|
| Text.Strip | src/agent.py:255 | Python's `str.strip()`: the result is empty exactly when the input is all whitespace; a non-empty result neither starts nor ends with whitespace; it sits in the input between a whitespace-only prefix and suffix |
| Text.AfterFirstSpace | app.py:313 | `s.split(" ", 1)[1] if " " in s else s`: the whole string without a space, otherwise the suffix after the first space, which has no space before it |
| Text.AfterFirstSpaceOfJoin | app.py:176 | splitting `glyph + " " + name` when the glyph has no space gives back the name |
| Text.ContainsIffOccurs | app.py:315 | Python's `needle in hay` (`Text.Contains`) holds exactly when the needle occurs at some position of the text |
| Text.Take | src/agent.py:64 | Python's `s[:n]`: a prefix of length `min(n, len(s))` |
| Text.DecimalRoundTrip | src/agent.py:135 | the decimal rendering of a source number parses back to that number |
| Text.NumberedAt | src/agent.py:134-136 | in an `enumerate(…, 1)` accumulation, element `k` is rendered with number `k + 1` right after the renderings of the elements before it |
| Text.NumberedCount | src/agent.py:134-136 | when every rendering holds `m` copies of a character, the accumulation holds `m` per element |
| Personas.CatalogWellFormed | src/personas.py:8-105 | the table has unique keys and every voice's stability, similarity boost and style lie in [0, 1] and speed in [0.5, 2.0] |
| Personas.Find | src/personas.py:115 | dictionary lookup: no result exactly when no entry has the name; a result is the persona stored under the name |
| Personas.GetPersonaNames | src/personas.py:108-110 | the six keys in definition order, starting with "5-Year-Old", without duplicates |
| Personas.GetPersona | src/personas.py:113-115 | the entry stored under a listed name; the "5-Year-Old" entry for any other name; voice settings always in range |
| Personas.NamesResolveToOwnEntry | src/personas.py:108-115 | every listed name resolves to its own entry, only "5-Year-Old" resolves to the fallback, and the empty name resolves like "5-Year-Old" |
| Personas.PirateVoice | src/personas.py:40-54 | the Pirate's glyph is 🏴‍☠️ and its voice is "TX3LPaxmHKxFdv7VOQHJ" |
| Search.AbstractResult | src/agent.py:52-58 | result #1 has the abstract as its snippet; title, source and URL are the heading, provider and URL, defaulting to "Overview", "DuckDuckGo" and "" when absent |
| Search.RelatedResult | src/agent.py:62-68 | a related entry's title is the first 50 characters of its text plus "..." (at most 53 characters), its snippet the full text, its source "DuckDuckGo", its URL the entry's URL or "" |
| Search.KeepRelated | src/agent.py:61-68 | one result per usable entry (an object with non-empty text), each with source "DuckDuckGo", a non-empty snippet and a title of at most 53 characters |
| Search.UsablePositions | src/agent.py:61-62 | the positions of the usable entries, strictly ascending |
| Search.RelatedAreSubsequence | src/agent.py:61-68 | the kept results are the usable entries' results in their original order: result `k` comes from the `k`-th usable position, and an entry is usable exactly when its position is listed |
| Search.Examined | src/agent.py:61 | only the first three related entries are examined: all of them when there are fewer, none when the list is missing |
| Search.Collect | src/agent.py:49-68 | at most four results: the abstract's result first when there is an abstract, then the kept related entries |
| Search.Fallback | src/agent.py:71-77 | the synthetic result has no URL, source "General Knowledge", and names the query in its title and its snippet |
| Search.WebSearch | src/agent.py:24-91 | between one and four results; the fallback alone when the call failed or nothing was collected; the error is reported exactly when the call failed |
| Search.LaterTopicsIgnored | src/agent.py:61 | related entries after the third never change the outcome, so a skipped entry among the first three is not replaced |
| Research.ResearchText | src/agent.py:131 | the research text opens with "## Research on: {topic}" and a blank line |
| Research.UrlSources | src/agent.py:137-142 | no more sources than results, and each source has a URL |
| Research.UrlPositions | src/agent.py:134-137 | the positions of the results with a URL, strictly ascending |
| Research.UrlSourcesAreSubsequence | src/agent.py:134-142 | the sources are the results with a URL, converted, in their original order: source `k` comes from the `k`-th position with a URL, and a result has a URL exactly when its position is listed |
| Research.SectionNumbering | src/agent.py:134-136 | result `k` is the section "### Source {k+1}", right after the header and the sections of the results before it |
| Research.HashCount | src/agent.py:131-136 | with no `#` in the topic, titles or snippets, the text holds two `#` for the header and exactly three (one "###" header) per result |
| Research.FallbackInText | src/agent.py:134-136 | the fallback's sentence appears verbatim in the research text |
| Research.ResearchTopic | src/agent.py:122-144 | the text opens with the header; no more sources than results; every source has a URL; when the search failed or found nothing there are no sources and the fallback sentence is in the text |
| Llm.GetApiKey | src/agent.py:16-21 | the key is returned exactly when it is set and non-empty; otherwise the missing-key error |
| Llm.ChatRequestFor | src/agent.py:106-111 | the request carries the messages, the fixed model, 1500 tokens and a temperature within the API's range |
| Llm.CallLlm | src/agent.py:94-119 | without a key nothing is sent and the missing-key error results; with one, a completion gives its text, an HTTP error status becomes the API error with its code and body, anything else a call failure |
| Llm.ErrorMessagesDistinct | src/agent.py:94-119 | the three kinds of failure have different messages |
| Llm.KindMarks | src/agent.py:116-119 | the first two characters of a failure message tell its kind |
| Agent.AudienceContext | src/agent.py:253-256 | the audience line is empty exactly when the audience is empty or whitespace, and otherwise contains the stripped audience |
| Agent.SystemMessage | src/agent.py:277-287 | the system message opens with the persona's prompt and contains the audience line |
| Agent.UserMessage | src/agent.py:291-295 | the user message contains the research text |
| Agent.PromptMessages | src/agent.py:274-297 | two messages, system then user, carrying the persona prompt, the audience line and the research |
| Agent.Steps | src/agent.py:225-272 | four step events: research, research_done, extracting, generating; only research_done carries sources, and those are the sources found |
| Agent.Assemble | src/agent.py:299-317 | the steps come first and are unchanged; a failed call adds no event and raises its error; a successful one adds one result event with the explanation, the sources, the requested persona name, the resolved persona's glyph, voice and settings, and the fixed tool trace |
| Agent.Pipeline | src/agent.py:225-317 | the run is well formed, has no failure exactly when the call succeeded, and its result event carries the sources announced by the research_done step |
| Agent.RunAgent | src/agent.py:219-317 | four steps in the fixed order, then the result event exactly when no failure is raised; research_done carries the research sources; the failure, or the explanation, is the completion call's outcome |
| Agent.ResultCarriesPersona | src/agent.py:234-317 | the result event's sources equal those on the research_done step; it carries the requested name (even when that name is unknown), the resolved persona's glyph, voice and settings, and the fixed three-tool trace |
| Agent.MissingKeyStopsAfterSteps | src/agent.py:299 | without an API key the four steps are emitted, there is no result event, and the missing-key error is raised |
| Agent.RunShapeDeterministic | src/agent.py:225-317 | any two runs for the same request list the same step ids in the same order, whatever the search response or the completion; two runs that both succeed or both fail have the same length |
| Agent.PirateScenario | src/agent.py:308-317 | asking the Pirate gives a result event with the Pirate's glyph and voice |
| Formatting.FormatSources | app.py:78-89 | the placeholder "*No external sources used*" exactly for the empty list |
| Formatting.SourceLineNewlines | app.py:84-89 | when no field contains a newline, each source line ends with its only newline |
| Formatting.SourcesOneLineEach | app.py:83-89 | when no field contains a newline, a non-empty list renders to exactly one line per source |
| Formatting.SourceNumbering | app.py:83-89 | source `k` is the line numbered `k + 1`, right after the lines of the sources before it |
| Formatting.SourceLineForm | app.py:84-89 | each line opens with its number; a source with a URL is a Markdown link `[title](url)`, one without is `title (source)` |
| Formatting.FormatMcpTools | app.py:92-100 | the placeholder "*Waiting for explanation...*" exactly for the empty list; otherwise the output opens with the table header |
| Formatting.HeaderNewlines | app.py:97 | the table header is two lines |
| Formatting.ToolsOneRowEach | app.py:97-100 | when no field contains a newline, a non-empty tool list renders to the two header lines and exactly one row per tool |
| Formatting.ToolRowOrder | app.py:97-100 | rows keep the input order: tool `k`'s row follows the header and the rows of the tools before it |
| Formatting.PipelineTable | app.py:97-100 | the table of a finished run is the header and the rows of web_search, extract_facts and persona_transform, in that order |
| App.Fold | app.py:118-136 | never more log entries than events; a stream of steps only logs each step's title and content in order and sets no explanation and no tools |
| App.FoldStepCount | app.py:119-121 | the number of log entries equals the number of step events, for any stream |
| App.FoldSources | app.py:125-134 | the final sources are those of the last event handing sources over (the result event, else the research_done step) |
| App.FoldNoSources | app.py:113 | when no event hands sources over, the sources stay empty |
| App.FoldRun | app.py:118-136 | reading a complete run logs its four steps and keeps the result event's explanation, sources and tools |
| App.PersonaOrDefault | app.py:108-109 | an empty persona name becomes "5-Year-Old", any other name is kept |
| App.ExplainTopic | app.py:103-142 | a blank topic gives "Please enter a topic to explain!" and three empty outputs; otherwise the answer fails exactly when the pipeline raises, with its error |
| App.BlankTopicIgnoresServices | app.py:105-106 | for a blank topic the answer depends on nothing else: the pipeline never runs |
| App.ExplainedOutput | app.py:118-142 | a successful answer shows the generated text, the search's sources rendered as a list, four logged steps and the table of the pipeline tools |
| App.EmptyPersonaIsDefault | app.py:108-109 | an empty persona name explains exactly as "5-Year-Old" does |
| App.EmptyPersonaAudioIsDefault | app.py:150-151 | an empty persona name yields the same speech request as "5-Year-Old" |
| App.GenerateAudio | app.py:145-155 | nothing to read exactly when the text is empty or whitespace; otherwise the speech request carries the text, the resolved persona's voice and its in-range settings |
| App.PersonaChoices | app.py:175-178 | one label per persona, in catalogue order: glyph, a space, the name |
| App.AudienceChoices | app.py:181-188 | the six audience labels: glyph, a space, the audience |
| App.PersonaOfLabel | app.py:313 | a label without a space is kept whole; otherwise the result is what follows a space-free prefix and one space |
| App.AudienceOfLabel | app.py:314-316 | no audience for an empty label or one containing "Just me"; otherwise the text after the first space |
| App.OtherAudience | app.py:314-316 | any label `glyph + " " + name` with a space-free glyph that does not contain "Just me" yields `name` |
| App.PersonaLabelsRoundTrip | app.py:175-178 | parsing each persona label gives back that persona's name |
| App.AudienceLabels | app.py:181-188 | "Just me" means no audience, and every other label gives its audience name |
| App.ProcessAndExplain | app.py:312-317 | a blank topic gets the fixed prompt whatever the labels say |
| App.DropdownChoices | app.py:312-317 | picking the `i`-th persona and the `j`-th audience explains as that persona to that audience, with "Just me" meaning none |
| App.ProcessAudio | app.py:319-321 | nothing to read exactly for blank text; otherwise the speech request uses the voice of the persona named by the label |
| App.AudioVoiceOfChoice | app.py:319-321 | the speech request for a persona picked from the dropdown uses that persona's voice |

## Left out

- The HTTP transport of `web_search` and `call_llm` is not modelled: the httpx clients, headers, timeouts and JSON decoding. The search response and the completion are parameters instead. Any response whose shape makes `web_search` raise is a `FetchFailed` value; the source handles both the same way, with the fallback result. Examples are a `RelatedTopics` value that is null, a number or an object, all of which fail the `[:3]` slice. A string `RelatedTopics` value does not raise: slicing it gives up to three characters, which fail the `dict` test and are skipped. The model represents it as `Some` of that many `NonRecord` entries, so the abstract's result survives and no error is set.
- Search.RelatedResult: a related entry whose `Text` is a non-empty non-string (a number, a non-empty list or object, `true`) is not modelled. Such an entry makes the source raise, and that case is also covered by `FetchFailed`. A falsy `Text` (null, 0, `false`, an empty list or object) fails the `topic.get("Text")` test without raising, so the model represents it as an absent text (`None`) and the entry is skipped.
- `format_tool_call` (src/agent.py:206-216) is display-only JSON rendering. A step's content is kept as a structured `ToolCall` record of the tool, its inputs and its summary.
- The steps log join (app.py:120, app.py:138) is not rendered. It needs the JSON text of each tool call, so `App.Output` keeps the logged steps as a sequence of title and tool-call entries.
- `generate_explanation` (src/agent.py:147-203) is not modelled because `run_agent` never calls it.
- `src/tts.py` is not part of this model, and neither is the speech call with its temporary file (app.py:157-169). `GenerateAudio` stops at the speech request: the text, the voice and the settings. The source calls `generate_speech` with three arguments (app.py:160), but `src/tts.py:15` takes two; the model does not reproduce that call. As written, that call raises a `TypeError` inside the `try`, which becomes the "Audio generation failed" error (app.py:166-168): every non-blank read-aloud fails and the settings never reach the speech service. `GenerateAudio` models the request the handler evidently means to make.
- The Gradio UI is not modelled: layout, CSS and progress callbacks.
- A failure raised by `run_agent` leaves `explain_topic` as an exception. The model returns it as `Failure`.
- `modal_app.py` is deployment glue with copies of the same formatters, and `src/__init__.py` only re-exports. Neither is modelled.
- Voice settings and the temperature are reals, used only as constants and ranges. No floating-point arithmetic is modelled.
- Personas.Catalog: each persona's `system_prompt` is kept only as its first line, the one that introduces the character. The remaining lines are long literal text that no property depends on. Each first line is at least 50 characters, so the 50-character "style" preview in the generating step equals the source's preview of the full prompt. The system message then holds the first line where the source has the whole prompt.
- Formatting.FormatSources: the `"General"` default for a source without a `source` field (app.py:88) is not modelled. `research_topic` always fills that field, so `Source` always has one.
- Research.ToSource: the `"Web"` default of `result.get("source", "Web")` (src/agent.py:141) is not modelled. Every search result carries a source.
- The `"sources" in update` test (app.py:127) and the `update.get` defaults (app.py:134-135) always see their key in events that `run_agent` produces. In the model, `Final` events always carry sources and tools.

=== FILE: agent.dfy ===
/** `run_agent`: the pipeline's event stream. Four step events in a fixed
    order (search, search response, fact extraction, persona transform),
    then exactly one result event; when the completion call fails the
    stream stops after the four steps and the failure is raised instead. */
module Agent {
  import opened Wrappers
  import opened Text
  import opened Personas
  import opened Search
  import opened Research
  import opened Llm

  /** The `step` field of a step event. */
  datatype StepId = Searching | SearchDone | Extracting | Generating {
    function Name(): string {
      match this
      case Searching => "research"
      case SearchDone => "research_done"
      case Extracting => "extracting"
      case Generating => "generating"
    }
  }

  datatype JsonValue = JString(s: string) | JNumber(n: int)

  /** The arguments of `format_tool_call`, kept as data instead of the
      JSON text it renders. */
  datatype ToolCall = ToolCall(tool: string, inputs: seq<(string, JsonValue)>, output: string)

  /** An entry of the result's `mcp_tools` list. */
  datatype Tool = Tool(name: string, icon: string, desc: string)

  datatype Event =
    | Step(id: StepId, title: string, content: ToolCall, attached: Option<seq<Source>>)
    | Final(explanation: string, sources: seq<Source>, persona: string, personaEmoji: string,
            voiceId: string, voiceSettings: VoiceSettings, mcpTools: seq<Tool>)

  /** The outside world as `run_agent` sees it: the search response for a
      query, the `NEBIUS_API_KEY` environment value, and the completion
      service. */
  datatype Services = Services(
    fetch: string -> Fetched,
    apiKey: Option<string>,
    complete: (string, ChatRequest) -> Completion)

  /** The events the generator yields, and the failure it raises at the
      end, if any. */
  datatype AgentRun = AgentRun(events: seq<Event>, failure: Option<LlmError>)

  const StepOrder: seq<StepId> := [Searching, SearchDone, Extracting, Generating]

  /** The fixed tool trace reported with every result. */
  const PipelineTools: seq<Tool> := [
    Tool("web_search", "\U{1F50D}", "Web research via DuckDuckGo API"),
    Tool("extract_facts", "\U{1F4CB}", "Key fact extraction from sources"),
    Tool("persona_transform", "\U{1F3AD}", "Persona explanation via Nebius LLM")
  ]

  /** The extra system-prompt line naming the audience; empty when there is
      no audience to name. */
  function AudienceContext(audience: string): (r: string)
    ensures r == "" <==> IsBlank(audience)
    ensures !IsBlank(audience) ==> Contains(r, Strip(audience))
  {
    var who := Strip(audience);
    if audience != "" && who != "" then
      ContainsInMiddle("\nYou are explaining this to: ", who, ". Tailor your explanation appropriately for them.");
      "\nYou are explaining this to: " + who + ". Tailor your explanation appropriately for them."
    else ""
  }

  /** The delivery rules that follow the persona's prompt; the audience
      line goes between the two parts. */
  const RulesOpening: string :=
    "\n\nYou are explaining a topic to someone. Your explanation should be:\n"
    + "1. Entertaining and fully in character\n"
    + "2. Educational - actually explain the concept clearly\n"
    + "3. MAXIMUM 100 words - be concise!\n"
    + "4. Natural spoken language (will be read aloud)\n"
    + "5. Engaging and memorable"
  const RulesClosing: string :=
    "\n\nDo NOT break character. Do NOT use markdown, bullet points, or special formatting.\n"
    + "Just speak naturally as your character would."

  function SystemMessage(persona: Persona, audienceContext: string): (m: string)
    ensures IsPrefix(persona.systemPrompt, m)
    ensures Contains(m, audienceContext)
  {
    ContainsInMiddle(persona.systemPrompt + RulesOpening, audienceContext, RulesClosing);
    persona.systemPrompt + RulesOpening + audienceContext + RulesClosing
  }

  const ResearchLead: string := "Research on the topic:\n\n"

  function UserMessage(topic: string, personaName: string, research: string): (m: string)
    ensures Contains(m, research)
  {
    var tail := "\n\nNow explain \"" + topic + "\" in your unique "
      + personaName + " voice and style. Make it fun, memorable, and educational!";
    ContainsInMiddle(ResearchLead, research, tail);
    ResearchLead + research + tail
  }

  /** The two messages sent to the completion service: the persona's
      prompt with the delivery rules (and the audience line), then the
      research and the request to explain the topic. */
  function PromptMessages(topic: string, personaName: string, persona: Persona, audience: string,
                          research: string): (m: seq<Message>)
    ensures |m| == 2 && m[0].role == System && m[1].role == User
    ensures IsPrefix(persona.systemPrompt, m[0].content)
    ensures Contains(m[0].content, AudienceContext(audience))
    ensures Contains(m[1].content, research)
  {
    [Message(System, SystemMessage(persona, AudienceContext(audience))),
     Message(User, UserMessage(topic, personaName, research))]
  }

  /** The step events, given the topic, the persona and the sources found. */
  function Steps(topic: string, personaName: string, persona: Persona, audience: string, sources: seq<Source>)
    : (s: seq<Event>)
    ensures |s| == |StepOrder|
    ensures forall i :: 0 <= i < |s| ==> s[i].Step? && s[i].id == StepOrder[i]
    ensures forall i :: 0 <= i < |s| ==> (s[i].attached.Some? <==> i == 1)
    ensures s[1].attached == Some(sources)
  {
    var found := Decimal(|sources|);
    [
      Step(Searching, "\U{1F527} Tool: `web_search`",
           ToolCall("web_search", [("query", JString(topic)), ("max_results", JNumber(5))], "Searching..."),
           None),
      Step(SearchDone, "\U{2705} Response: `web_search`",
           ToolCall("web_search", [("query", JString(topic))], "Found " + found + " sources"),
           Some(sources)),
      Step(Extracting, "\U{1F527} Tool: `extract_facts`",
           ToolCall("extract_facts", [("text", JString("[" + found + " source documents]")), ("max_facts", JNumber(5))],
                    "Extracting key facts..."),
           None),
      Step(Generating, "\U{1F527} Tool: `persona_transform`",
           ToolCall("persona_transform",
                    [("persona", JString(personaName)),
                     ("audience", JString(if audience != "" then audience else "general")),
                     ("style", JString(Take(persona.systemPrompt, 50) + "..."))],
                    "Generating explanation..."),
           None)
    ]
  }

  /** The completion call `run_agent` makes, and its outcome. */
  function Explain(topic: string, personaName: string, persona: Persona, audience: string, services: Services)
    : Result<string, LlmError>
  {
    var research := ResearchTopic(topic, services.fetch(topic)).text;
    CallLlm(services.apiKey, services.complete, PromptMessages(topic, personaName, persona, audience, research))
  }

  /** Steps in the fixed order, then one result event exactly when no
      failure was raised. */
  predicate WellFormedRun(r: AgentRun) {
    && |r.events| == |StepOrder| + (if r.failure.None? then 1 else 0)
    && (forall i :: 0 <= i < |StepOrder| ==> r.events[i].Step? && r.events[i].id == StepOrder[i])
    && (r.failure.None? ==> r.events[|StepOrder|].Final?)
  }

  /** The events once the research is done and the completion call has
      returned: the steps, then the result event unless the call failed. */
  function Assemble(steps: seq<Event>, personaName: string, persona: Persona, sources: seq<Source>,
                    outcome: Result<string, LlmError>): (r: AgentRun)
    ensures |r.events| == |steps| + (if outcome.Success? then 1 else 0)
    ensures r.events[..|steps|] == steps
    ensures outcome.Failure? ==> r.failure == Some(outcome.error)
    ensures outcome.Success? ==>
      && r.failure.None?
      && r.events[|steps|] == Final(outcome.value, sources, personaName, persona.emoji, persona.voiceId,
                                    persona.voiceSettings, PipelineTools)
  {
    if outcome.Failure? then AgentRun(steps, Some(outcome.error))
    else
      var events := steps + [Final(outcome.value, sources, personaName, persona.emoji, persona.voiceId,
                                   persona.voiceSettings, PipelineTools)];
      assert events[..|steps|] == steps;
      AgentRun(events, None)
  }

  /** The body of `run_agent` once the persona has been looked up, the
      search has returned and the completion call has produced its
      outcome. */
  function Pipeline(topic: string, personaName: string, persona: Persona, audience: string,
                    sources: seq<Source>, outcome: Result<string, LlmError>): (r: AgentRun)
    ensures WellFormedRun(r)
    ensures r.failure.None? <==> outcome.Success?
    ensures outcome.Failure? ==> r.failure == Some(outcome.error)
    ensures r.events[1].attached == Some(sources)
    ensures outcome.Success? ==>
      r.events[4] == Final(outcome.value, sources, personaName, persona.emoji, persona.voiceId,
                           persona.voiceSettings, PipelineTools)
  {
    var steps := Steps(topic, personaName, persona, audience, sources);
    var r := Assemble(steps, personaName, persona, sources, outcome);
    assert forall i :: 0 <= i < 4 ==> r.events[i] == r.events[..4][i] == steps[i];
    r
  }

  /** `run_agent(topic, persona_name, audience)`: the persona is looked up
      by name (unknown names fall back to the default persona), and the
      result event carries that persona's glyph, voice and settings
      together with the sources announced by the search response step. */
  function RunAgent(topic: string, personaName: string, audience: string, services: Services): (r: AgentRun)
    ensures WellFormedRun(r)
    ensures r.events[1].attached == Some(ResearchTopic(topic, services.fetch(topic)).sources)
    ensures var outcome := Explain(topic, personaName, GetPersona(personaName), audience, services);
      && (outcome.Failure? ==> r.failure == Some(outcome.error))
      && (outcome.Success? ==> r.failure.None? && r.events[4].explanation == outcome.value)
  {
    var persona := GetPersona(personaName);
    Pipeline(topic, personaName, persona, audience, ResearchTopic(topic, services.fetch(topic)).sources,
             Explain(topic, personaName, persona, audience, services))
  }

  /** The result event of a run that did not fail names the persona and
      carries its glyph, voice and settings, the sources announced by the
      search response step, and the fixed tool trace. */
  lemma ResultCarriesPersona(topic: string, personaName: string, audience: string, services: Services)
    ensures var r := RunAgent(topic, personaName, audience, services);
      var persona := GetPersona(personaName);
      r.failure.None? ==>
        && Some(r.events[4].sources) == r.events[1].attached
        && r.events[4].persona == personaName
        && r.events[4].personaEmoji == persona.emoji
        && r.events[4].voiceId == persona.voiceId
        && r.events[4].voiceSettings == persona.voiceSettings
        && r.events[4].mcpTools == PipelineTools
  {
  }

  /** Without an API key nothing is generated: the four steps are emitted
      and the missing-key error is raised. */
  lemma MissingKeyStopsAfterSteps(topic: string, personaName: string, audience: string, services: Services)
    requires services.apiKey.None? || services.apiKey == Some("")
    ensures RunAgent(topic, personaName, audience, services).failure == Some(MissingApiKey)
    ensures |RunAgent(topic, personaName, audience, services).events| == 4
  {
  }

  /** The shape of the stream does not depend on the search response or
      the generated text: two runs that both succeed (or both fail) list
      the same step ids in the same order, and any two runs agree on them. */
  lemma RunShapeDeterministic(topic: string, personaName: string, audience: string, s1: Services, s2: Services)
    ensures var r1, r2 := RunAgent(topic, personaName, audience, s1), RunAgent(topic, personaName, audience, s2);
      && (forall i :: 0 <= i < 4 ==> r1.events[i].id == r2.events[i].id)
      && ((r1.failure.None? <==> r2.failure.None?) ==> |r1.events| == |r2.events|)
  {
  }

  /** Asking the Pirate about black holes with no audience: the result
      carries the Pirate's glyph and voice. */
  lemma PirateScenario(services: Services)
    ensures var r := RunAgent("Black Holes", "Pirate", "", services);
      r.failure.None? ==>
        && r.events[4].voiceId == "TX3LPaxmHKxFdv7VOQHJ"
        && r.events[4].personaEmoji == "\U{1F3F4}\U{200D}\U{2620}\U{FE0F}"
  {
    PirateVoice();
  }
}

=== FILE: app.dfy ===
/** The web front end's handlers: `explain_topic` reads the pipeline's event
    stream and renders its four outputs, `generate_audio` turns an
    explanation into a speech request, and the two click handlers recover
    the persona and audience names from their dropdown labels. */
module App {
  import opened Wrappers
  import opened Text
  import opened Personas
  import opened Research
  import opened Llm
  import opened Agent
  import opened Formatting

  const NoTopicMessage: string := "Please enter a topic to explain!"

  /** One entry of the steps log: a step's title and its tool call. */
  datatype StepEntry = StepEntry(title: string, content: ToolCall)

  /** What `explain_topic` keeps while it reads the stream. */
  datatype Collected = Collected(steps: seq<StepEntry>, explanation: string, sources: seq<Source>, tools: seq<Tool>)

  /** The four values `explain_topic` returns: the explanation, the sources
      list, the steps log and the tools table. */
  datatype Output = Output(explanation: string, sourcesMd: string, steps: seq<StepEntry>, toolsMd: string)

  const Nothing: Collected := Collected([], "", [], [])

  /** The sources an event hands over: the search response step's
      attachment, or the result's source list. */
  function CarriedSources(e: Event): Option<seq<Source>> {
    match e
    case Step(id, _, _, attached) => if id == SearchDone then attached else None
    case Final(_, sources, _, _, _, _, _) => Some(sources)
  }

  /** The update for one event: a step is logged (and the search response
      step replaces the sources); the result sets the explanation, the
      sources and the tools. */
  function Absorb(c: Collected, e: Event): Collected {
    match e
    case Step(_, title, content, _) =>
      Collected(c.steps + [StepEntry(title, content)], c.explanation,
                CarriedSources(e).GetOr(c.sources), c.tools)
    case Final(explanation, sources, _, _, _, _, tools) =>
      Collected(c.steps, explanation, sources, tools)
  }

  /** The loop of `explain_topic` over the events, in order. */
  function Fold(events: seq<Event>): (c: Collected)
    ensures |c.steps| <= |events|
    ensures (forall k :: 0 <= k < |events| ==> events[k].Step?) ==>
      && |c.steps| == |events|
      && (forall k :: 0 <= k < |events| ==> c.steps[k] == StepEntry(events[k].title, events[k].content))
      && c.explanation == "" && c.tools == []
  {
    if events == [] then Nothing
    else
      var init := events[..|events| - 1];
      var c := Absorb(Fold(init), events[|events| - 1]);
      assert forall k :: 0 <= k < |init| ==> init[k] == events[k];
      c
  }

  /** The last event that hands over sources decides them. */
  lemma {:induction false} FoldSources(events: seq<Event>, k: nat)
    requires k < |events| && CarriedSources(events[k]).Some?
    requires forall j :: k < j < |events| ==> CarriedSources(events[j]).None?
    ensures Fold(events).sources == CarriedSources(events[k]).value
  {
    var n := |events| - 1;
    var init := events[..n];
    if k < n {
      assert forall j :: k < j < |init| ==> init[j] == events[j];
      assert init[k] == events[k];
      FoldSources(init, k);
      assert CarriedSources(events[n]).None?;
    }
  }

  /** No event hands over sources: the list stays empty. */
  lemma {:induction false} FoldNoSources(events: seq<Event>)
    requires forall j :: 0 <= j < |events| ==> CarriedSources(events[j]).None?
    ensures Fold(events).sources == []
  {
    if events != [] {
      var init := events[..|events| - 1];
      assert forall j :: 0 <= j < |init| ==> init[j] == events[j];
      FoldNoSources(init);
      assert CarriedSources(events[|events| - 1]).None?;
    }
  }

  /** The number of step events, counted from the front. */
  function StepEvents(events: seq<Event>): nat {
    if events == [] then 0 else (if events[0].Step? then 1 else 0) + StepEvents(events[1..])
  }

  /** Counting from the back gives the same number. */
  lemma {:induction false} StepEventsSnoc(events: seq<Event>, e: Event)
    ensures StepEvents(events + [e]) == StepEvents(events) + (if e.Step? then 1 else 0)
  {
    if events != [] {
      assert (events + [e])[1..] == events[1..] + [e];
      StepEventsSnoc(events[1..], e);
    } else {
      assert [e][1..] == [];
    }
  }

  /** One log entry per step event, whatever the stream. */
  lemma {:induction false} FoldStepCount(events: seq<Event>)
    ensures |Fold(events).steps| == StepEvents(events)
  {
    if events != [] {
      var n := |events| - 1;
      FoldStepCount(events[..n]);
      StepEventsSnoc(events[..n], events[n]);
      assert events[..n] + [events[n]] == events;
    }
  }

  /** Reading a complete run: four logged steps, and the explanation,
      sources and tools of its result event. */
  lemma FoldRun(run: AgentRun)
    requires WellFormedRun(run) && run.failure.None?
    ensures var c := Fold(run.events);
      var fin := run.events[4];
      && |c.steps| == 4
      && (forall k :: 0 <= k < 4 ==> c.steps[k] == StepEntry(run.events[k].title, run.events[k].content))
      && c.explanation == fin.explanation
      && c.sources == fin.sources
      && c.tools == fin.mcpTools
  {
    var es := run.events;
    var steps := es[..4];
    assert forall k :: 0 <= k < 4 ==> steps[k] == es[k] && steps[k].Step?;
    assert Fold(es) == Absorb(Fold(steps), es[4]);
  }

  /** The persona used for an empty dropdown value. */
  function PersonaOrDefault(name: string): (r: string)
    ensures name == "" ==> r == DefaultName
    ensures name != "" ==> r == name
  {
    if name == "" then DefaultName else name
  }

  /** `explain_topic(topic, persona_name, audience)`: a blank topic is
      answered with a prompt to enter one; otherwise the pipeline runs (a
      failure it raises is passed on) and its stream is rendered. */
  function ExplainTopic(topic: string, personaName: string, audience: string, services: Services)
    : (r: Result<Output, LlmError>)
    ensures IsBlank(topic) ==> r == Success(Output(NoTopicMessage, "", [], ""))
    ensures !IsBlank(topic) ==>
      var run := RunAgent(topic, PersonaOrDefault(personaName), audience, services);
      && (r.Failure? <==> run.failure.Some?)
      && (r.Failure? ==> r.error == run.failure.value)
  {
    if Strip(topic) == "" then Success(Output(NoTopicMessage, "", [], ""))
    else
      var run := RunAgent(topic, PersonaOrDefault(personaName), audience, services);
      if run.failure.Some? then Failure(run.failure.value)
      else
        var c := Fold(run.events);
        Success(Output(c.explanation, FormatSources(c.sources), c.steps, FormatMcpTools(c.tools)))
  }

  /** A blank topic never reaches the pipeline: the answer depends on
      nothing else. */
  lemma BlankTopicIgnoresServices(topic: string, p1: string, p2: string, a1: string, a2: string,
                                  s1: Services, s2: Services)
    requires IsBlank(topic)
    ensures ExplainTopic(topic, p1, a1, s1) == ExplainTopic(topic, p2, a2, s2)
    ensures ExplainTopic(topic, p1, a1, s1).value.explanation == NoTopicMessage
  {
  }

  /** What a successful explanation shows: the generated text, the sources
      of the search rendered as a list, the four steps, and the table of
      the three pipeline tools. */
  lemma ExplainedOutput(topic: string, personaName: string, audience: string, services: Services)
    requires !IsBlank(topic)
    ensures var r := ExplainTopic(topic, personaName, audience, services);
      var name := PersonaOrDefault(personaName);
      r.Success? ==>
        && r.value.explanation == Explain(topic, name, GetPersona(name), audience, services).value
        && r.value.sourcesMd == FormatSources(ResearchTopic(topic, services.fetch(topic)).sources)
        && |r.value.steps| == 4
        && r.value.toolsMd == FormatMcpTools(PipelineTools)
  {
    var name := PersonaOrDefault(personaName);
    var run := RunAgent(topic, name, audience, services);
    if run.failure.None? {
      FoldRun(run);
      ResultCarriesPersona(topic, name, audience, services);
    }
  }

  /** An empty persona value is the same as choosing "5-Year-Old". */
  lemma EmptyPersonaIsDefault(topic: string, audience: string, services: Services)
    ensures ExplainTopic(topic, "", audience, services) == ExplainTopic(topic, DefaultName, audience, services)
  {
  }

  /** The arguments of the speech call. */
  datatype SpeechRequest = SpeechRequest(text: string, voiceId: string, settings: VoiceSettings)

  /** `generate_audio`: nothing to read for an empty or blank text;
      otherwise a speech request for the text in the persona's voice. */
  function GenerateAudio(explanation: string, personaName: string): (r: Option<SpeechRequest>)
    ensures r.None? <==> IsBlank(explanation)
    ensures r.Some? ==>
      var persona := GetPersona(PersonaOrDefault(personaName));
      && r.value.text == explanation
      && r.value.voiceId == persona.voiceId
      && r.value.settings == persona.voiceSettings
      && SettingsInRange(r.value.settings)
  {
    if explanation == "" || Strip(explanation) == "" then None
    else
      var persona := GetPersona(PersonaOrDefault(personaName));
      Some(SpeechRequest(explanation, persona.voiceId, persona.voiceSettings))
  }

  /** Reading aloud with an empty persona value is the same as choosing
      "5-Year-Old". */
  lemma EmptyPersonaAudioIsDefault(explanation: string)
    ensures GenerateAudio(explanation, "") == GenerateAudio(explanation, DefaultName)
  {
  }

  /** The persona dropdown's labels: glyph, a space, the name. */
  function PersonaChoices(): (r: seq<string>)
    ensures |r| == |Catalog|
    ensures forall i :: 0 <= i < |r| ==> r[i] == Catalog[i].persona.emoji + " " + Catalog[i].name
  {
    seq(|Catalog|, i requires 0 <= i < |Catalog| => Catalog[i].persona.emoji + " " + Catalog[i].name)
  }

  /** The audiences offered; the first means no particular audience. */
  const AudienceNames: seq<string> :=
    ["Just me", "Confused grandmother", "Skeptical robot", "Alien visitor", "Zombie", "Stressed CEO"]
  const AudienceGlyphs: seq<string> :=
    ["\U{1F464}", "\U{1F475}", "\U{1F916}", "\U{1F47D}", "\U{1F9DF}", "\U{1F454}"]

  /** The audience dropdown's labels: glyph, a space, the audience. */
  function AudienceChoices(): (r: seq<string>)
    ensures |r| == |AudienceNames|
    ensures forall i :: 0 <= i < |r| ==> r[i] == AudienceGlyphs[i] + " " + AudienceNames[i]
  {
    seq(|AudienceNames|, i requires 0 <= i < |AudienceNames| => AudienceGlyphs[i] + " " + AudienceNames[i])
  }

  /** The name in a persona choice: everything after the first space. */
  function PersonaOfLabel(choice: string): (r: string)
    ensures ' ' !in choice ==> r == choice
    ensures ' ' in choice ==> exists g :: ' ' !in g && choice == g + " " + r
  {
    var r := AfterFirstSpace(choice);
    if ' ' in choice then
      var g := choice[..|choice| - |r| - 1];
      assert choice == g + " " + r;
      r
    else r
  }

  /** The audience in an audience choice: none for an empty choice or one
      mentioning "Just me", otherwise everything after the first space. */
  function AudienceOfLabel(choice: string): (r: string)
    ensures choice == "" || Contains(choice, "Just me") ==> r == ""
    ensures choice != "" && !Contains(choice, "Just me") ==> r == PersonaOfLabel(choice)
  {
    if choice != "" && !Contains(choice, "Just me") then PersonaOfLabel(choice) else ""
  }

  /** No occurrence when the needle's first character is absent. */
  lemma FirstCharAbsent(hay: string, needle: string)
    requires needle != [] && needle[0] !in hay
    ensures !Contains(hay, needle)
  {
    forall i: nat | i + |needle| <= |hay|
      ensures !OccursAt(hay, needle, i)
    {
      assert hay[i..i + |needle|][0] == hay[i];
    }
    ContainsIffOccurs(hay, needle);
  }

  /** A label without "Just me": glyph, space, audience name. */
  lemma OtherAudience(glyph: string, name: string)
    requires ' ' !in glyph && !Contains(glyph + " " + name, "Just me")
    ensures AudienceOfLabel(glyph + " " + name) == name
  {
    AfterFirstSpaceOfJoin(glyph, name);
  }

  /** Each persona choice leads back to its persona's name. */
  lemma PersonaLabelsRoundTrip()
    ensures forall i :: 0 <= i < |PersonaChoices()| ==> PersonaOfLabel(PersonaChoices()[i]) == GetPersonaNames()[i]
  {
    forall i | 0 <= i < |Catalog|
      ensures PersonaOfLabel(PersonaChoices()[i]) == GetPersonaNames()[i]
    {
      var e := Catalog[i];
      assert ' ' !in e.persona.emoji;
      AfterFirstSpaceOfJoin(e.persona.emoji, e.name);
    }
  }

  /** "Just me" means no audience; every other label gives its audience. */
  lemma AudienceLabels()
    ensures AudienceOfLabel(AudienceChoices()[0]) == ""
    ensures forall i :: 1 <= i < |AudienceChoices()| ==> AudienceOfLabel(AudienceChoices()[i]) == AudienceNames[i]
  {
    var choices := AudienceChoices();
    ContainsInMiddle(AudienceGlyphs[0] + " ", AudienceNames[0], "");
    assert AudienceGlyphs[0] + " " + AudienceNames[0] + "" == choices[0];
    forall i | 1 <= i < |choices|
      ensures AudienceOfLabel(choices[i]) == AudienceNames[i]
    {
      var choice := AudienceGlyphs[i] + " " + AudienceNames[i];
      assert ' ' !in AudienceGlyphs[i] && 'J' !in AudienceGlyphs[i] && 'J' !in AudienceNames[i];
      assert 'J' !in choice;
      FirstCharAbsent(choice, "Just me");
      OtherAudience(AudienceGlyphs[i], AudienceNames[i]);
    }
  }

  /** The explain button's handler. */
  function ProcessAndExplain(topic: string, personaLabel: string, audienceLabel: string, services: Services)
    : (r: Result<Output, LlmError>)
    ensures IsBlank(topic) ==> r == Success(Output(NoTopicMessage, "", [], ""))
  {
    ExplainTopic(topic, PersonaOfLabel(personaLabel), AudienceOfLabel(audienceLabel), services)
  }

  /** Picking the `i`-th persona and the `j`-th audience from the dropdowns
      explains in that persona's voice to that audience ("Just me" being
      none). */
  lemma DropdownChoices(topic: string, i: nat, j: nat, services: Services)
    requires i < |Catalog| && j < |AudienceNames|
    ensures ProcessAndExplain(topic, PersonaChoices()[i], AudienceChoices()[j], services)
         == ExplainTopic(topic, Catalog[i].name, if j == 0 then "" else AudienceNames[j], services)
  {
    PersonaLabelsRoundTrip();
    AudienceLabels();
  }

  /** The read-aloud button's handler. */
  function ProcessAudio(explanation: string, personaLabel: string): (r: Option<SpeechRequest>)
    ensures r.None? <==> IsBlank(explanation)
    ensures r.Some? ==>
      && r.value.text == explanation
      && r.value.voiceId == GetPersona(PersonaOrDefault(PersonaOfLabel(personaLabel))).voiceId
  {
    GenerateAudio(explanation, PersonaOfLabel(personaLabel))
  }

  /** A persona choice picked from the dropdown asks for speech in that
      persona's voice. */
  lemma AudioVoiceOfChoice(explanation: string, i: nat)
    requires i < |Catalog| && !IsBlank(explanation)
    ensures ProcessAudio(explanation, PersonaChoices()[i]).value.voiceId == Catalog[i].persona.voiceId
  {
    PersonaLabelsRoundTrip();
    NamesResolveToOwnEntry();
  }
}

=== FILE: formatting.dfy ===
/** The two Markdown renderings shown next to an explanation: the numbered
    source list and the table of tools the pipeline used. Both have a fixed
    placeholder for empty input. */
module Formatting {
  import opened Text
  import opened Research
  import opened Agent

  const NoSourcesText: string := "*No external sources used*"
  const NoToolsText: string := "*Waiting for explanation...*"

  /** The `i`-th line of the source list: a link when the source has a URL,
      otherwise the title followed by the publisher in parentheses. */
  function SourceLine(i: nat, s: Source): string {
    if s.url != "" then Decimal(i) + ". [" + s.title + "](" + s.url + ")\n"
    else Decimal(i) + ". " + s.title + " (" + s.source + ")\n"
  }

  /** `format_sources`. */
  function FormatSources(ss: seq<Source>): (r: string)
    ensures ss == [] <==> r == NoSourcesText
  {
    if ss == [] then NoSourcesText
    else
      var r := Numbered(ss, SourceLine);
      NumberedAt(ss, SourceLine, 0);
      assert IsPrefix(Decimal(1), r);
      assert r[0] != NoSourcesText[0];
      r
  }

  predicate NoNewline(s: string) {
    '\n' !in s
  }

  predicate PlainSource(s: Source) {
    NoNewline(s.title) && NoNewline(s.url) && NoNewline(s.source)
  }

  /** Each line ends with the only newline it holds. */
  lemma SourceLineNewlines(i: nat, s: Source)
    requires PlainSource(s)
    ensures Count('\n', SourceLine(i, s)) == 1
  {
    var d := Decimal(i);
    DecimalCount('\n', i);
    var body := if s.url != "" then d + ". [" + s.title + "](" + s.url + ")"
                else d + ". " + s.title + " (" + s.source + ")";
    assert SourceLine(i, s) == body + "\n";
    assert '\n' !in body;
    CountConcat('\n', body, "\n");
  }

  /** One line per source: with no newline inside any field, a non-empty
      list renders to exactly as many lines as there are sources. */
  lemma SourcesOneLineEach(ss: seq<Source>)
    requires ss != []
    requires forall k :: 0 <= k < |ss| ==> PlainSource(ss[k])
    ensures Count('\n', FormatSources(ss)) == |ss|
  {
    forall k | 0 <= k < |ss|
      ensures Count('\n', SourceLine(k + 1, ss[k])) == 1
    {
      SourceLineNewlines(k + 1, ss[k]);
    }
    NumberedCount('\n', ss, SourceLine, 1);
  }

  /** Source `k` (from 0) is the line numbered `k + 1`, right after the
      lines of the sources before it. */
  lemma SourceNumbering(ss: seq<Source>, k: nat)
    requires k < |ss|
    ensures IsPrefix(Numbered(ss[..k], SourceLine) + SourceLine(k + 1, ss[k]), FormatSources(ss))
  {
    NumberedAt(ss, SourceLine, k);
  }

  /** A line opens with its number, and it is a Markdown link exactly when
      the source has a URL; otherwise the publisher follows in parentheses. */
  lemma SourceLineForm(i: nat, s: Source)
    ensures IsPrefix(Decimal(i) + ". ", SourceLine(i, s))
    ensures s.url != "" ==> SourceLine(i, s) == Decimal(i) + ". [" + s.title + "](" + s.url + ")\n"
    ensures s.url == "" ==> SourceLine(i, s) == Decimal(i) + ". " + s.title + " (" + s.source + ")\n"
  {
    var d := Decimal(i);
    var line := SourceLine(i, s);
    if s.url != "" {
      assert line == (d + ". ") + ("[" + s.title + "](" + s.url + ")\n");
    } else {
      assert line == (d + ". ") + (s.title + " (" + s.source + ")\n");
    }
  }

  const TableTop: string := "| Tool | Description |"
  const TableRule: string := "|------|-------------|"
  /** The column titles and the separator line under them. */
  const TableHeader: string := TableTop + "\n" + TableRule + "\n"

  /** One table row. */
  function ToolRow(t: Tool): string {
    "| " + t.icon + " `" + t.name + "` | " + t.desc + " |\n"
  }

  /** The rows of `tools`, in order. */
  function Rows(tools: seq<Tool>): string {
    Numbered(tools, (_: nat, t: Tool) => ToolRow(t))
  }

  /** `format_mcp_tools`. */
  function FormatMcpTools(tools: seq<Tool>): (r: string)
    ensures tools == [] <==> r == NoToolsText
    ensures tools != [] ==> IsPrefix(TableHeader, r)
  {
    if tools == [] then NoToolsText
    else
      var r := TableHeader + Rows(tools);
      assert r[0] != NoToolsText[0];
      r
  }

  predicate PlainTool(t: Tool) {
    NoNewline(t.icon) && NoNewline(t.name) && NoNewline(t.desc)
  }

  lemma ToolRowNewlines(t: Tool)
    requires PlainTool(t)
    ensures Count('\n', ToolRow(t)) == 1
  {
    var body := "| " + t.icon + " `" + t.name + "` | " + t.desc + " |";
    assert ToolRow(t) == body + "\n";
    assert '\n' !in body;
    CountConcat('\n', body, "\n");
  }

  /** Two newline-free lines, each closed by a newline. */
  lemma TwoLines(a: string, b: string)
    requires NoNewline(a) && NoNewline(b)
    ensures Count('\n', a + "\n" + b + "\n") == 2
  {
    CountConcat('\n', a, "\n");
    CountConcat('\n', b, "\n");
    assert a + "\n" + b + "\n" == (a + "\n") + (b + "\n");
    CountConcat('\n', a + "\n", b + "\n");
  }

  lemma HeaderNewlines()
    ensures Count('\n', TableHeader) == 2
  {
    assert NoNewline(TableTop) && NoNewline(TableRule);
    TwoLines(TableTop, TableRule);
  }

  /** The two header lines, then one row per tool. */
  lemma ToolsOneRowEach(tools: seq<Tool>)
    requires tools != []
    requires forall k :: 0 <= k < |tools| ==> PlainTool(tools[k])
    ensures Count('\n', FormatMcpTools(tools)) == 2 + |tools|
  {
    var render := (_: nat, t: Tool) => ToolRow(t);
    forall k | 0 <= k < |tools|
      ensures Count('\n', render(k + 1, tools[k])) == 1
    {
      ToolRowNewlines(tools[k]);
    }
    NumberedCount('\n', tools, render, 1);
    HeaderNewlines();
    CountConcat('\n', TableHeader, Rows(tools));
  }

  /** Rows keep the input order: the row of tool `k` follows the header and
      the rows of the tools before it. */
  lemma ToolRowOrder(tools: seq<Tool>, k: nat)
    requires k < |tools|
    ensures IsPrefix(TableHeader + Rows(tools[..k]) + ToolRow(tools[k]), FormatMcpTools(tools))
  {
    var render := (_: nat, t: Tool) => ToolRow(t);
    NumberedAt(tools, render, k);
    PrefixAfter(TableHeader, Rows(tools[..k]) + ToolRow(tools[k]), Rows(tools));
    assert TableHeader + Rows(tools[..k]) + ToolRow(tools[k])
        == TableHeader + (Rows(tools[..k]) + ToolRow(tools[k]));
  }

  /** The table every finished explanation shows: the header and the three
      pipeline tools, in order. */
  lemma PipelineTable()
    ensures FormatMcpTools(PipelineTools)
         == TableHeader + ToolRow(PipelineTools[0]) + ToolRow(PipelineTools[1]) + ToolRow(PipelineTools[2])
  {
    var ts := PipelineTools;
    var render := (_: nat, t: Tool) => ToolRow(t);
    assert ts[..0] == [] && ts[..1][..0] == [] && ts[..2][..1] == ts[..1] && ts[..3] == ts;
    assert Numbered(ts[..1], render) == ToolRow(ts[0]);
    assert Numbered(ts[..2], render) == ToolRow(ts[0]) + ToolRow(ts[1]);
  }
}

=== FILE: llm.dfy ===
/** `get_nebius_client` and `call_llm`: the credential check and the
    mapping of the chat-completion outcome to a text or an error. The HTTP
    exchange itself is the `complete` parameter. */
module Llm {
  import opened Wrappers
  import opened Text

  const ModelName: string := "meta-llama/Llama-3.3-70B-Instruct"
  /** `call_llm`'s default token budget. */
  const MaxTokens: nat := 1500
  /** Sampling temperature, on the service's 0..2 scale. */
  const Temperature: real := 0.8

  datatype Role = System | User
  datatype Message = Message(role: Role, content: string)

  /** The JSON body posted to `/chat/completions`. */
  datatype ChatRequest = ChatRequest(model: string, messages: seq<Message>, maxTokens: nat, temperature: real)

  /** What the completion service did with a request: answered (the first
      choice's message content), answered with a non-success status, or
      failed otherwise (unreachable, malformed body). */
  datatype Completion = Completed(content: string) | HttpStatus(code: nat, body: string) | Broken(detail: string)

  datatype LlmError = MissingApiKey | ApiError(code: nat, body: string) | CallFailed(detail: string) {
    /** The text of the exception the source raises. */
    function Message(): string {
      match this
      case MissingApiKey => "NEBIUS_API_KEY environment variable not set"
      case ApiError(code, body) => "Nebius API error: " + Decimal(code) + " - " + body
      case CallFailed(detail) => "LLM call failed: " + detail
    }
  }

  /** `get_nebius_client`: the `NEBIUS_API_KEY` environment value, which
      must be set and non-empty. */
  function GetApiKey(env: Option<string>): (r: Result<string, LlmError>)
    ensures r.Success? <==> env.Some? && env.value != ""
    ensures r.Success? ==> r.value == env.value
    ensures r.Failure? ==> r.error == MissingApiKey
  {
    if env.Some? && env.value != "" then Success(env.value) else Failure(MissingApiKey)
  }

  function ChatRequestFor(messages: seq<Message>): (q: ChatRequest)
    ensures q.messages == messages
    ensures q.model == ModelName && q.maxTokens == MaxTokens
    ensures 0.0 <= q.temperature <= 2.0
  {
    ChatRequest(ModelName, messages, MaxTokens, Temperature)
  }

  /** `call_llm`: check the key first (nothing is sent without one), then
      post the messages with the key as bearer credential. */
  function CallLlm(env: Option<string>, complete: (string, ChatRequest) -> Completion, messages: seq<Message>)
    : (r: Result<string, LlmError>)
    ensures GetApiKey(env).Failure? ==> r == Failure(MissingApiKey)
    ensures GetApiKey(env).Success? ==>
      var c := complete(env.value, ChatRequestFor(messages));
      && (c.Completed? <==> r.Success?)
      && (c.Completed? ==> r.value == c.content)
      && (c.HttpStatus? ==> r == Failure(ApiError(c.code, c.body)))
      && (c.Broken? ==> r == Failure(CallFailed(c.detail)))
  {
    match GetApiKey(env)
    case Failure(e) => Failure(e)
    case Success(key) =>
      match complete(key, ChatRequestFor(messages))
      case Completed(text) => Success(text)
      case HttpStatus(code, body) => Failure(ApiError(code, body))
      case Broken(detail) => Failure(CallFailed(detail))
  }

  /** The three kinds of failure are told apart by their messages. */
  lemma ErrorMessagesDistinct(a: LlmError, b: LlmError)
    requires a.Message() == b.Message()
    ensures a.MissingApiKey? <==> b.MissingApiKey?
    ensures a.ApiError? <==> b.ApiError?
    ensures a.CallFailed? <==> b.CallFailed?
  {
    KindMarks(a);
    KindMarks(b);
  }

  /** The first two characters of a message identify its kind. */
  lemma KindMarks(e: LlmError)
    ensures |e.Message()| >= 2
    ensures e.CallFailed? <==> e.Message()[0] == 'L'
    ensures e.MissingApiKey? <==> e.Message()[1] == 'E'
  {
    match e
    case MissingApiKey =>
    case ApiError(code, body) =>
      assert e.Message() == "Nebius API error: " + (Decimal(code) + " - " + body);
    case CallFailed(detail) =>
      assert e.Message() == "LLM call failed: " + detail;
  }
}

=== FILE: personas.dfy ===
/** The persona catalogue: a fixed, ordered table from persona name to the
    character's prompt, synthetic voice and display glyph, with a total
    lookup that falls back to the first entry. */
module Personas {
  import opened Wrappers

  /** Speech-rendering knobs. The documented ranges are stability,
      similarity boost and style in [0, 1] and speed in [0.5, 2.0]. */
  datatype VoiceSettings = VoiceSettings(stability: real, similarityBoost: real, style: real, speed: real)

  /** One character. `systemPrompt` holds the first line of the character's
      prompt (the line that introduces the character). */
  datatype Persona = Persona(systemPrompt: string, voiceId: string, voiceSettings: VoiceSettings, emoji: string)

  /** One key/value pair of the table, in definition order. */
  datatype Entry = Entry(name: string, persona: Persona)

  /** The persona used when a name is missing or unknown. */
  const DefaultName: string := "5-Year-Old"

  const ChildPersona := Persona(
    "You are an excited, curious 5-year-old child explaining things.",
    "jBpfuIE2acCO8z3wKNLl",
    VoiceSettings(0.3, 0.7, 0.8, 1.15),
    "\U{1F476}")

  const ChefPersona := Persona(
    "You are Gordon Ramsay, the intense celebrity chef, explaining things.",
    "N2lVS1w4EtoT3dr4eOWO",
    VoiceSettings(0.25, 0.8, 0.9, 1.1),
    "\U{1F468}\U{200D}\U{1F373}")

  const PiratePersona := Persona(
    "You are a theatrical pirate captain explaining things.",
    "TX3LPaxmHKxFdv7VOQHJ",
    VoiceSettings(0.35, 0.6, 0.85, 0.95),
    "\U{1F3F4}\U{200D}\U{2620}\U{FE0F}")

  const BardPersona := Persona(
    "You are William Shakespeare explaining modern concepts in Elizabethan style.",
    "onwK4e9ZLuTAKqWW03F9",
    VoiceSettings(0.4, 0.75, 0.7, 0.85),
    "\U{1F3AD}")

  const SurferPersona := Persona(
    "You are a laid-back California surfer dude explaining things.",
    "ErXwobaYiN019PkySvjV",
    VoiceSettings(0.5, 0.65, 0.6, 0.9),
    "\U{1F3C4}")

  const JediPersona := Persona(
    "You are Yoda, the wise Jedi Master, explaining things.",
    "pqHfZKP75CvOlQylNhV4",
    VoiceSettings(0.45, 0.7, 0.5, 0.7),
    "\U{1F9D9}")

  /** The table, in definition order. */
  const Catalog: seq<Entry> := [
    Entry(DefaultName, ChildPersona),
    Entry("Gordon Ramsay", ChefPersona),
    Entry("Pirate", PiratePersona),
    Entry("Shakespeare", BardPersona),
    Entry("Surfer Dude", SurferPersona),
    Entry("Yoda", JediPersona)
  ]

  /** The documented ranges of every voice knob. */
  predicate SettingsInRange(v: VoiceSettings) {
    && 0.0 <= v.stability <= 1.0
    && 0.0 <= v.similarityBoost <= 1.0
    && 0.0 <= v.style <= 1.0
    && 0.5 <= v.speed <= 2.0
  }

  /** No two entries share a name (a dictionary has unique keys). */
  predicate DistinctNames(entries: seq<Entry>) {
    forall i, j :: 0 <= i < j < |entries| ==> entries[i].name != entries[j].name
  }

  /** The catalogue is a well-formed table whose every voice is within range. */
  lemma CatalogWellFormed()
    ensures DistinctNames(Catalog)
    ensures forall i :: 0 <= i < |Catalog| ==> SettingsInRange(Catalog[i].persona.voiceSettings)
  {
  }

  /** The persona stored under `name` in `entries`, if any (first match). */
  function Find(entries: seq<Entry>, name: string): (r: Option<Persona>)
    ensures r.None? <==> forall i :: 0 <= i < |entries| ==> entries[i].name != name
    ensures r.Some? ==> exists i :: 0 <= i < |entries| && entries[i] == Entry(name, r.value)
  {
    if |entries| == 0 then None
    else if entries[0].name == name then Some(entries[0].persona)
    else
      var r := Find(entries[1..], name);
      assert r.Some? ==> exists i :: 1 <= i < |entries| && entries[i] == Entry(name, r.value) by {
        if r.Some? {
          var i :| 0 <= i < |entries[1..]| && entries[1..][i] == Entry(name, r.value);
          assert entries[i + 1] == Entry(name, r.value);
        }
      }
      r
  }

  /** `get_persona_names`: the keys of the table in definition order. */
  function GetPersonaNames(): (r: seq<string>)
    ensures |r| == |Catalog| == 6
    ensures r[0] == DefaultName
    ensures forall i :: 0 <= i < |r| ==> r[i] == Catalog[i].name
    ensures forall i, j :: 0 <= i < j < |r| ==> r[i] != r[j]
  {
    CatalogWellFormed();
    seq(|Catalog|, i requires 0 <= i < |Catalog| => Catalog[i].name)
  }

  /** `get_persona`: the entry stored under `name`, or the "5-Year-Old"
      entry for any other name (including the empty one). Never fails. */
  function GetPersona(name: string): (p: Persona)
    ensures forall i :: 0 <= i < |Catalog| && Catalog[i].name == name ==> p == Catalog[i].persona
    ensures name !in GetPersonaNames() ==> p == Catalog[0].persona
    ensures SettingsInRange(p.voiceSettings)
  {
    CatalogWellFormed();
    var names := GetPersonaNames();
    assert name !in names ==> forall i :: 0 <= i < |Catalog| ==> Catalog[i].name != name by {
      if name !in names {
        forall i | 0 <= i < |Catalog|
          ensures Catalog[i].name != name
        {
          assert names[i] == Catalog[i].name;
        }
      }
    }
    Find(Catalog, name).GetOr(Catalog[0].persona)
  }

  /** Every listed name resolves to its own entry, never to the fallback
      (except the fallback's own name), and the unknown and empty names
      resolve to the same persona as "5-Year-Old". */
  lemma {:induction false} NamesResolveToOwnEntry()
    ensures forall i :: 0 <= i < |GetPersonaNames()| ==>
      GetPersona(GetPersonaNames()[i]) == Catalog[i].persona
    ensures forall i :: 1 <= i < |GetPersonaNames()| ==>
      GetPersona(GetPersonaNames()[i]) != GetPersona(DefaultName)
    ensures GetPersona("") == GetPersona(DefaultName)
  {
    var names := GetPersonaNames();
    forall i | 1 <= i < |names|
      ensures GetPersona(names[i]) != GetPersona(DefaultName)
    {
      assert GetPersona(names[i]).voiceId == Catalog[i].persona.voiceId;
    }
    assert "" !in names by {
      forall i | 0 <= i < |names| ensures names[i] != "" {
        assert |names[i]| > 0;
      }
    }
  }

  /** The Pirate's glyph and voice. */
  lemma PirateVoice()
    ensures GetPersona("Pirate").emoji == "\U{1F3F4}\U{200D}\U{2620}\U{FE0F}"
    ensures GetPersona("Pirate").voiceId == "TX3LPaxmHKxFdv7VOQHJ"
  {
    assert Catalog[2].name == "Pirate";
  }
}

=== FILE: research.dfy ===
/** `research_topic`: one search for the topic, turned into a numbered
    research text and the list of results that carry a URL. */
module Research {
  import opened Wrappers
  import opened Text
  import opened Search

  /** A citation kept for the caller. */
  datatype Source = Source(title: string, url: string, source: string)

  /** The research text handed to the generator, and its sources. */
  datatype Bundle = Bundle(text: string, sources: seq<Source>)

  function ToSource(r: SearchResult): Source {
    Source(r.title, r.url, r.source)
  }

  function Header(topic: string): string {
    "## Research on: " + topic + "\n\n"
  }

  /** The section for the `i`-th result (numbering starts at 1). */
  function Block(i: nat, r: SearchResult): string {
    "### Source " + Decimal(i) + ": " + r.title + "\n" + r.snippet + "\n\n"
  }

  /** The sections for `rs`, numbered from 1 in order. */
  function Blocks(rs: seq<SearchResult>): string {
    Numbered(rs, Block)
  }

  function ResearchText(topic: string, rs: seq<SearchResult>): (t: string)
    ensures IsPrefix(Header(topic), t)
  {
    Header(topic) + Blocks(rs)
  }

  /** The sources kept from `rs`: those with a non-empty URL, in order. */
  function UrlSources(rs: seq<SearchResult>): (s: seq<Source>)
    ensures |s| <= |rs|
    ensures forall k :: 0 <= k < |s| ==> s[k].url != ""
  {
    if |rs| == 0 then []
    else
      var last := rs[|rs| - 1];
      UrlSources(rs[..|rs| - 1]) + (if last.url != "" then [ToSource(last)] else [])
  }

  /** The positions in `rs` of the results with a non-empty URL, ascending. */
  function UrlPositions(rs: seq<SearchResult>): (ix: seq<nat>)
    ensures |ix| <= |rs|
    ensures forall k :: 0 <= k < |ix| ==> ix[k] < |rs| && rs[ix[k]].url != ""
    ensures forall k, l :: 0 <= k < l < |ix| ==> ix[k] < ix[l]
  {
    if |rs| == 0 then []
    else UrlPositions(rs[..|rs| - 1]) + (if rs[|rs| - 1].url != "" then [|rs| - 1] else [])
  }

  /** The sources are exactly the URL-bearing results, converted, in their
      original order: an order-preserving subsequence that keeps every
      result with a URL and nothing else. */
  lemma {:induction false} UrlSourcesAreSubsequence(rs: seq<SearchResult>)
    ensures |UrlSources(rs)| == |UrlPositions(rs)|
    ensures forall k :: 0 <= k < |UrlSources(rs)| ==>
      UrlSources(rs)[k] == ToSource(rs[UrlPositions(rs)[k]])
    ensures forall i :: 0 <= i < |rs| ==> (rs[i].url != "" <==> i in UrlPositions(rs))
  {
    if |rs| > 0 {
      var n := |rs| - 1;
      var init := rs[..n];
      UrlSourcesAreSubsequence(init);
      var srcs, ix := UrlSources(init), UrlPositions(init);
      var keep := rs[n].url != "";
      assert UrlSources(rs) == srcs + (if keep then [ToSource(rs[n])] else []);
      assert UrlPositions(rs) == ix + (if keep then [n] else []);
      forall k | 0 <= k < |UrlSources(rs)|
        ensures UrlSources(rs)[k] == ToSource(rs[UrlPositions(rs)[k]])
      {
        if k < |srcs| {
          assert UrlSources(rs)[k] == srcs[k] && UrlPositions(rs)[k] == ix[k];
          assert init[ix[k]] == rs[ix[k]];
        }
      }
      forall i | 0 <= i < |rs|
        ensures rs[i].url != "" <==> i in UrlPositions(rs)
      {
        if i < n {
          assert init[i] == rs[i];
        } else {
          assert n !in ix;
        }
      }
    }
  }

  /** Numbering: the `k`-th result (from 0) appears as the section numbered
      `k + 1`, right after the header and the sections of the results before it. */
  lemma SectionNumbering(topic: string, rs: seq<SearchResult>, k: nat)
    requires k < |rs|
    ensures IsPrefix(Header(topic) + Blocks(rs[..k]) + Block(k + 1, rs[k]), ResearchText(topic, rs))
  {
    NumberedAt(rs, Block, k);
    PrefixAfter(Header(topic), Blocks(rs[..k]) + Block(k + 1, rs[k]), Blocks(rs));
    assert Header(topic) + Blocks(rs[..k]) + Block(k + 1, rs[k])
        == Header(topic) + (Blocks(rs[..k]) + Block(k + 1, rs[k]));
  }

  /** One `#` run per section: when no title, snippet or topic contains
      `#`, the text holds the two of the top header and exactly three per
      result, i.e. one "###" header per result. */
  lemma HashCount(topic: string, rs: seq<SearchResult>)
    requires '#' !in topic
    requires forall k :: 0 <= k < |rs| ==> '#' !in rs[k].title && '#' !in rs[k].snippet
    ensures Count('#', ResearchText(topic, rs)) == 2 + 3 * |rs|
  {
    forall k | 0 <= k < |rs|
      ensures Count('#', Block(k + 1, rs[k])) == 3
    {
      BlockHashCount(k + 1, rs[k]);
    }
    NumberedCount('#', rs, Block, 3);
    HeaderHashCount(topic);
    CountConcat('#', Header(topic), Blocks(rs));
  }

  lemma HeaderHashCount(topic: string)
    requires '#' !in topic
    ensures Count('#', Header(topic)) == 2
  {
    var rest := " Research on: " + topic + "\n\n";
    assert Header(topic) == "##" + rest;
    assert '#' !in rest;
    assert Count('#', "##") == 2;
    CountConcat('#', "##", rest);
  }

  lemma BlockHashCount(i: nat, r: SearchResult)
    requires '#' !in r.title && '#' !in r.snippet
    ensures Count('#', Block(i, r)) == 3
  {
    var d := Decimal(i);
    assert '#' !in d;
    var rest := " Source " + d + ": " + r.title + "\n" + r.snippet + "\n\n";
    assert Block(i, r) == "###" + rest;
    assert '#' !in rest;
    assert Count('#', "###") == 3;
    CountConcat('#', "###", rest);
  }

  /** The fallback result's sentence, which names the topic, survives into
      the research text. */
  lemma FallbackInText(topic: string)
    ensures Contains(ResearchText(topic, [Fallback(topic)]), Fallback(topic).snippet)
  {
    var f := Fallback(topic);
    var rs := [f];
    assert rs[..0] == [];
    assert Numbered(rs, Block) == Numbered(rs[..0], Block) + Block(1, f);
    assert Blocks(rs) == Block(1, f);
    var pre := "### Source " + Decimal(1) + ": " + f.title + "\n";
    assert Block(1, f) == pre + f.snippet + "\n\n";
    var before := Header(topic) + pre;
    assert ResearchText(topic, rs) == Header(topic) + (pre + f.snippet + "\n\n");
    assert Header(topic) + (pre + f.snippet + "\n\n") == before + f.snippet + "\n\n";
    ContainsInMiddle(before, f.snippet, "\n\n");
  }

  /** `research_topic`: search for `topic` (the response is `fetched`) and
      number the results into the research text. */
  function ResearchTopic(topic: string, fetched: Fetched): (b: Bundle)
    ensures IsPrefix(Header(topic), b.text)
    ensures |b.sources| <= |WebSearch(topic, fetched).results|
    ensures forall k :: 0 <= k < |b.sources| ==> b.sources[k].url != ""
    ensures fetched.FetchFailed? || Collect(fetched.data) == [] ==>
      b.sources == [] && Contains(b.text, Fallback(topic).snippet)
  {
    var results := WebSearch(topic, fetched).results;
    var b := Bundle(ResearchText(topic, results), UrlSources(results));
    if results == [Fallback(topic)] then FallbackInText(topic); b else b
  }
}

=== FILE: search.dfy ===
/** The result-building part of `web_search`: turning a decoded DuckDuckGo
    instant-answer response into at most four uniform search results, with
    a synthetic fallback whenever nothing usable came back. */
module Search {
  import opened Wrappers
  import opened Text

  /** One entry of `RelatedTopics`: a JSON object with optional `Text` and
      `FirstURL`, or anything else (a list, a string, a number). */
  datatype RelatedTopic = TopicRecord(text: Option<string>, firstUrl: Option<string>) | NonRecord

  /** The decoded instant-answer object; `None` is a missing key. */
  datatype InstantAnswer = InstantAnswer(
    abstractText: Option<string>,
    heading: Option<string>,
    abstractSource: Option<string>,
    abstractUrl: Option<string>,
    relatedTopics: Option<seq<RelatedTopic>>)

  /** What the HTTP request and JSON decoding produced. `FetchFailed` stands
      for every exception raised while fetching or reading the response. */
  datatype Fetched = Decoded(data: InstantAnswer) | FetchFailed(reason: string)

  datatype SearchResult = SearchResult(title: string, snippet: string, source: string, url: string)

  /** The dictionary `web_search` returns; `error` is set only when an
      exception was caught. */
  datatype SearchOutcome = SearchOutcome(results: seq<SearchResult>, query: string, error: Option<string>)

  /** Only this many related entries are examined. */
  const RelatedLimit: nat := 3
  /** Related titles keep this many characters of the entry's text. */
  const PreviewLength: nat := 50

  predicate HasAbstract(data: InstantAnswer) {
    data.abstractText.Some? && data.abstractText.value != ""
  }

  /** Result #1, built from the abstract. */
  function AbstractResult(data: InstantAnswer): (r: SearchResult)
    requires HasAbstract(data)
    ensures r.snippet == data.abstractText.value
    ensures data.heading.None? ==> r.title == "Overview"
    ensures data.heading.Some? ==> r.title == data.heading.value
    ensures data.abstractSource.None? ==> r.source == "DuckDuckGo"
    ensures data.abstractSource.Some? ==> r.source == data.abstractSource.value
    ensures data.abstractUrl.None? ==> r.url == ""
    ensures data.abstractUrl.Some? ==> r.url == data.abstractUrl.value
  {
    SearchResult(
      data.heading.GetOr("Overview"),
      data.abstractText.value,
      data.abstractSource.GetOr("DuckDuckGo"),
      data.abstractUrl.GetOr(""))
  }

  /** A related entry contributes a result when it is an object with a
      non-empty `Text`. */
  predicate Usable(t: RelatedTopic) {
    t.TopicRecord? && t.text.Some? && t.text.value != ""
  }

  /** A related entry's result: a 50-character preview plus "..." as title,
      the full text as snippet. */
  function RelatedResult(t: RelatedTopic): (r: SearchResult)
    requires Usable(t)
    ensures r.snippet == t.text.value
    ensures r.title == Take(t.text.value, PreviewLength) + "..."
    ensures |r.title| <= PreviewLength + 3
    ensures r.source == "DuckDuckGo"
    ensures r.url == t.firstUrl.GetOr("")
  {
    SearchResult(Take(t.text.value, PreviewLength) + "...", t.text.value, "DuckDuckGo", t.firstUrl.GetOr(""))
  }

  /** Number of usable entries in `ts`. */
  function CountUsable(ts: seq<RelatedTopic>): nat {
    if |ts| == 0 then 0 else CountUsable(ts[..|ts| - 1]) + (if Usable(ts[|ts| - 1]) then 1 else 0)
  }

  /** The results of the usable entries of `ts`, appended in order;
      unusable entries are skipped. */
  function KeepRelated(ts: seq<RelatedTopic>): (r: seq<SearchResult>)
    ensures |r| == CountUsable(ts) <= |ts|
    ensures forall k :: 0 <= k < |r| ==>
      r[k].source == "DuckDuckGo" && r[k].snippet != "" && |r[k].title| <= PreviewLength + 3
  {
    if |ts| == 0 then []
    else
      var last := ts[|ts| - 1];
      KeepRelated(ts[..|ts| - 1]) + (if Usable(last) then [RelatedResult(last)] else [])
  }

  /** The positions in `ts` of the usable entries, ascending. */
  function UsablePositions(ts: seq<RelatedTopic>): (ix: seq<nat>)
    ensures |ix| <= |ts|
    ensures forall k :: 0 <= k < |ix| ==> ix[k] < |ts| && Usable(ts[ix[k]])
    ensures forall k, l :: 0 <= k < l < |ix| ==> ix[k] < ix[l]
  {
    if |ts| == 0 then []
    else UsablePositions(ts[..|ts| - 1]) + (if Usable(ts[|ts| - 1]) then [|ts| - 1] else [])
  }

  /** The kept results are exactly the usable entries' results, in their
      original order: result `k` comes from the `k`-th usable position, and
      an entry is usable exactly when its position is listed. */
  lemma {:induction false} RelatedAreSubsequence(ts: seq<RelatedTopic>)
    ensures |KeepRelated(ts)| == |UsablePositions(ts)|
    ensures forall k :: 0 <= k < |KeepRelated(ts)| ==>
      Usable(ts[UsablePositions(ts)[k]]) && KeepRelated(ts)[k] == RelatedResult(ts[UsablePositions(ts)[k]])
    ensures forall i :: 0 <= i < |ts| ==> (Usable(ts[i]) <==> i in UsablePositions(ts))
  {
    if |ts| > 0 {
      var n := |ts| - 1;
      var init := ts[..n];
      RelatedAreSubsequence(init);
      var rs, ix := KeepRelated(init), UsablePositions(init);
      var keep := Usable(ts[n]);
      assert KeepRelated(ts) == rs + (if keep then [RelatedResult(ts[n])] else []);
      assert UsablePositions(ts) == ix + (if keep then [n] else []);
      forall k | 0 <= k < |KeepRelated(ts)|
        ensures Usable(ts[UsablePositions(ts)[k]])
        ensures KeepRelated(ts)[k] == RelatedResult(ts[UsablePositions(ts)[k]])
      {
        if k < |rs| {
          assert KeepRelated(ts)[k] == rs[k] && UsablePositions(ts)[k] == ix[k];
          assert init[ix[k]] == ts[ix[k]];
        }
      }
      forall i | 0 <= i < |ts|
        ensures Usable(ts[i]) <==> i in UsablePositions(ts)
      {
        if i < n {
          assert init[i] == ts[i];
        } else {
          assert n !in ix;
        }
      }
    }
  }

  /** The related entries `web_search` examines: the first three. */
  function Examined(data: InstantAnswer): (r: seq<RelatedTopic>)
    ensures |r| <= RelatedLimit
    ensures data.relatedTopics.None? ==> r == []
    ensures data.relatedTopics.Some? ==> |r| <= |data.relatedTopics.value|
    ensures data.relatedTopics.Some? ==> r == data.relatedTopics.value[..|r|]
    ensures data.relatedTopics.Some? && |data.relatedTopics.value| >= RelatedLimit ==> |r| == RelatedLimit
    ensures data.relatedTopics.Some? && |data.relatedTopics.value| <= RelatedLimit ==> r == data.relatedTopics.value
  {
    Take(data.relatedTopics.GetOr([]), RelatedLimit)
  }

  /** The results gathered from a decoded response, before the fallback. */
  function Collect(data: InstantAnswer): (r: seq<SearchResult>)
    ensures |r| <= 1 + RelatedLimit
    ensures |r| == (if HasAbstract(data) then 1 else 0) + CountUsable(Examined(data))
    ensures HasAbstract(data) ==> |r| >= 1 && r[0] == AbstractResult(data)
    ensures HasAbstract(data) ==> r[1..] == KeepRelated(Examined(data))
    ensures !HasAbstract(data) ==> r == KeepRelated(Examined(data))
  {
    (if HasAbstract(data) then [AbstractResult(data)] else []) + KeepRelated(Examined(data))
  }

  /** The synthetic result used when search produced nothing. */
  function Fallback(query: string): (r: SearchResult)
    ensures r.url == "" && r.source == "General Knowledge"
    ensures Contains(r.snippet, query) && Contains(r.title, query)
  {
    var title := "Search: " + query;
    var snippet := "Topic: " + query + ". Please explain this concept based on general knowledge.";
    ContainsInMiddle("Search: ", query, "");
    assert title == "Search: " + query + "";
    ContainsInMiddle("Topic: ", query, ". Please explain this concept based on general knowledge.");
    SearchResult(title, snippet, "General Knowledge", "")
  }

  /** `web_search` from the point where the response is in hand. */
  function WebSearch(query: string, fetched: Fetched): (r: SearchOutcome)
    ensures r.query == query
    ensures 1 <= |r.results| <= 1 + RelatedLimit
    ensures r.error.Some? <==> fetched.FetchFailed?
    ensures fetched.FetchFailed? ==> r.results == [Fallback(query)]
    ensures fetched.Decoded? && Collect(fetched.data) == [] ==> r.results == [Fallback(query)]
    ensures fetched.Decoded? && Collect(fetched.data) != [] ==> r.results == Collect(fetched.data)
  {
    match fetched
    case FetchFailed(reason) => SearchOutcome([Fallback(query)], query, Some(reason))
    case Decoded(data) =>
      var results := Collect(data);
      if results == [] then SearchOutcome([Fallback(query)], query, None)
      else SearchOutcome(results, query, None)
  }

  /** Entries after the third never influence the results, so a skipped
      entry among the first three is never replaced by a later one. */
  lemma LaterTopicsIgnored(query: string, data: InstantAnswer, more: seq<RelatedTopic>)
    requires data.relatedTopics.Some? && |data.relatedTopics.value| >= RelatedLimit
    ensures WebSearch(query, Decoded(data.(relatedTopics := Some(data.relatedTopics.value + more))))
         == WebSearch(query, Decoded(data))
  {
    var ts := data.relatedTopics.value;
    assert (ts + more)[..RelatedLimit] == ts[..RelatedLimit];
  }
}

=== FILE: text.dfy ===
/** String helpers with Python's meaning: `str.isspace`, `str.strip`,
    slicing, `in` on strings, `str(n)` for naturals and `str.split(" ", 1)`. */
module Text {

  /** Python's `str.isspace` on one character: the ASCII controls
      TAB..CR and FS..US, the space, NEL, NBSP and the Unicode space separators. */
  predicate IsSpace(c: char) {
    || ('\U{9}' <= c <= '\U{D}')
    || ('\U{1C}' <= c <= '\U{20}')
    || c == '\U{85}' || c == '\U{A0}' || c == '\U{1680}'
    || ('\U{2000}' <= c <= '\U{200A}')
    || c == '\U{2028}' || c == '\U{2029}' || c == '\U{202F}' || c == '\U{205F}'
    || c == '\U{3000}'
  }

  /** Every character is whitespace; the empty string is blank. */
  predicate IsBlank(s: string) {
    forall i :: 0 <= i < |s| ==> IsSpace(s[i])
  }

  /** Python's `s.lstrip()`: `s` without its leading whitespace. */
  function LeftStrip(s: string): (r: string)
    ensures |r| <= |s| && r == s[|s| - |r|..]
    ensures IsBlank(s[..|s| - |r|])
    ensures r != "" ==> !IsSpace(r[0])
  {
    if |s| > 0 && IsSpace(s[0]) then
      var r := LeftStrip(s[1..]);
      var cut := s[..|s| - |r|];
      var tailCut := s[1..][..|s| - 1 - |r|];
      forall i | 0 <= i < |cut|
        ensures IsSpace(cut[i])
      {
        if i > 0 {
          assert cut[i] == tailCut[i - 1];
        }
      }
      assert s[1..][|s| - 1 - |r|..] == s[|s| - |r|..];
      r
    else s
  }

  /** Python's `s.rstrip()`: `s` without its trailing whitespace. */
  function RightStrip(s: string): (r: string)
    ensures |r| <= |s| && r == s[..|r|]
    ensures IsBlank(s[|r|..])
    ensures r != "" ==> !IsSpace(r[|r| - 1])
  {
    if |s| > 0 && IsSpace(s[|s| - 1]) then
      var init := s[..|s| - 1];
      var r := RightStrip(init);
      assert s[|r|..] == init[|r|..] + [s[|s| - 1]];
      r
    else s
  }

  /** `r` sits in `s` between a blank prefix and a blank suffix. */
  predicate BlankPadded(s: string, r: string) {
    exists i :: 0 <= i <= |s| - |r| && s[i..i + |r|] == r && IsBlank(s[..i]) && IsBlank(s[i + |r|..])
  }

  /** Python's `s.strip()`: `s` without its leading and trailing whitespace. */
  function Strip(s: string): (r: string)
    ensures |r| <= |s|
    ensures r == "" <==> IsBlank(s)
    ensures r != "" ==> !IsSpace(r[0]) && !IsSpace(r[|r| - 1])
    ensures BlankPadded(s, r)
  {
    var t := LeftStrip(s);
    var r := RightStrip(t);
    StripCore(s, t, r);
    r
  }

  /** Stripping the front and then the back leaves a string that is empty
      exactly for blank input, starts with a non-space, and sits between
      the two blank runs that were cut. */
  lemma StripCore(s: string, t: string, r: string)
    requires |t| <= |s| && t == s[|s| - |t|..] && IsBlank(s[..|s| - |t|])
    requires t != "" ==> !IsSpace(t[0])
    requires |r| <= |t| && r == t[..|r|] && IsBlank(t[|r|..])
    ensures r == "" <==> IsBlank(s)
    ensures r != "" ==> !IsSpace(r[0])
    ensures BlankPadded(s, r)
  {
    var k := |s| - |t|;
    forall j | 0 <= j < |t|
      ensures s[k + j] == t[j]
    {
      assert s[k..][j] == s[k + j];
    }
    forall j | 0 <= j < |r|
      ensures r[j] == t[j] && s[k..k + |r|][j] == r[j]
    {
      assert t[..|r|][j] == t[j];
    }
    assert s[k..k + |r|] == r;
    forall j | 0 <= j < |s| - (k + |r|)
      ensures s[k + |r|..][j] == t[|r|..][j]
    {
    }
    assert s[k + |r|..] == t[|r|..];
    forall j | |r| <= j < |t|
      ensures IsSpace(t[j])
    {
      assert t[|r|..][j - |r|] == t[j];
    }
    assert r == "" ==> |t| == 0;
    if r == "" {
      forall i | 0 <= i < |s|
        ensures IsSpace(s[i])
      {
        assert s[..k][i] == s[i];
      }
    }
    assert r != "" ==> r[0] == s[k];
  }

  /** The first `n` elements of `s` (Python's `s[:n]` for `n >= 0`). */
  function Take<T>(s: seq<T>, n: nat): (r: seq<T>)
    ensures |r| <= n && |r| <= |s|
    ensures r == s[..|r|]
    ensures |s| <= n ==> r == s
    ensures n <= |s| ==> |r| == n
  {
    if |s| <= n then s else s[..n]
  }

  /** `needle` occurs in `hay` starting at position `i`. */
  predicate OccursAt(hay: string, needle: string, i: nat) {
    i + |needle| <= |hay| && hay[i..i + |needle|] == needle
  }

  /** Python's `needle in hay` for strings. */
  predicate Contains(hay: string, needle: string) {
    |needle| <= |hay| && (hay[..|needle|] == needle || Contains(hay[1..], needle))
  }

  /** `Contains` holds exactly when the needle occurs at some position. */
  lemma {:induction false} ContainsIffOccurs(hay: string, needle: string)
    ensures Contains(hay, needle) <==> exists i: nat :: OccursAt(hay, needle, i)
  {
    if Contains(hay, needle) {
      if hay[..|needle|] == needle {
        assert OccursAt(hay, needle, 0);
      } else {
        ContainsIffOccurs(hay[1..], needle);
        var i: nat :| OccursAt(hay[1..], needle, i);
        assert hay[i + 1..i + 1 + |needle|] == hay[1..][i..i + |needle|];
        assert OccursAt(hay, needle, i + 1);
      }
    }
    if exists i: nat :: OccursAt(hay, needle, i) {
      var i: nat :| OccursAt(hay, needle, i);
      if i > 0 {
        assert hay[1..][i - 1..i - 1 + |needle|] == hay[i..i + |needle|];
        assert OccursAt(hay[1..], needle, i - 1);
        ContainsIffOccurs(hay[1..], needle);
      }
    }
  }

  /** A string occurs in any concatenation that has it in the middle. */
  lemma ContainsInMiddle(a: string, b: string, c: string)
    ensures Contains(a + b + c, b)
  {
    assert (a + b + c)[|a|..|a| + |b|] == b;
    assert OccursAt(a + b + c, b, |a|);
    ContainsIffOccurs(a + b + c, b);
  }

  /** Position of the first `c` in `s`, if any. */
  function IndexOf(s: string, c: char): (r: nat)
    ensures r <= |s|
    ensures r < |s| <==> c in s
    ensures r < |s| ==> s[r] == c
    ensures c !in s[..r]
  {
    if |s| == 0 then 0
    else if s[0] == c then 0
    else
      var r := 1 + IndexOf(s[1..], c);
      assert s[..r] == [s[0]] + s[1..][..r - 1];
      r
  }

  /** Python's `s.split(" ", 1)[1] if " " in s else s`: everything after the
      first space, or the whole string when it has none. */
  function AfterFirstSpace(s: string): (r: string)
    ensures ' ' !in s ==> r == s
    ensures ' ' in s ==> |r| < |s| && s[|s| - |r| - 1] == ' ' && s[|s| - |r|..] == r
                         && ' ' !in s[..|s| - |r| - 1]
  {
    var k := IndexOf(s, ' ');
    if k < |s| then s[k + 1..] else s
  }

  /** Splitting `prefix + " " + rest` at its first space gives back `rest`
      when `prefix` has no space. */
  lemma AfterFirstSpaceOfJoin(prefix: string, rest: string)
    requires ' ' !in prefix
    ensures AfterFirstSpace(prefix + " " + rest) == rest
  {
    var s := prefix + " " + rest;
    assert s[|prefix|] == ' ';
    var r := AfterFirstSpace(s);
  }

  /** The decimal digit for `d` (`0 <= d < 10`). */
  function Digit(d: nat): (c: char)
    requires d < 10
    ensures '0' <= c <= '9'
  {
    ['0', '1', '2', '3', '4', '5', '6', '7', '8', '9'][d]
  }

  /** The value of a decimal digit character. */
  function DigitValue(c: char): (d: nat)
    requires '0' <= c <= '9'
    ensures d < 10
    ensures Digit(d) == c
  {
    (c as int - '0' as int) as nat
  }

  /** Python's `str(n)` for a natural number: its decimal digits, most
      significant first, without leading zeros. */
  function Decimal(n: nat): (r: string)
    ensures |r| >= 1
    ensures forall i :: 0 <= i < |r| ==> '0' <= r[i] <= '9'
    ensures r[0] == '0' ==> n == 0
  {
    if n < 10 then [Digit(n)] else Decimal(n / 10) + [Digit(n % 10)]
  }

  /** Reads a string of decimal digits back as a number. */
  function ParseDecimal(s: string): nat
    requires forall i :: 0 <= i < |s| ==> '0' <= s[i] <= '9'
  {
    if |s| == 0 then 0 else 10 * ParseDecimal(s[..|s| - 1]) + DigitValue(s[|s| - 1])
  }

  /** `Decimal` loses nothing: reading the digits back gives the number. */
  lemma {:induction false} DecimalRoundTrip(n: nat)
    ensures ParseDecimal(Decimal(n)) == n
  {
    var s := Decimal(n);
    if n < 10 {
      assert s[..0] == [];
      assert DigitValue(Digit(n)) == n;
    } else {
      assert s[..|s| - 1] == Decimal(n / 10);
      DecimalRoundTrip(n / 10);
      assert DigitValue(Digit(n % 10)) == n % 10;
    }
  }

  /** How many times `c` occurs in `s`. */
  function Count(c: char, s: string): (n: nat)
    ensures n <= |s|
    ensures n == 0 <==> c !in s
  {
    if |s| == 0 then 0 else (if s[0] == c then 1 else 0) + Count(c, s[1..])
  }

  /** Occurrences in a concatenation add up. */
  lemma {:induction false} CountConcat(c: char, a: string, b: string)
    ensures Count(c, a + b) == Count(c, a) + Count(c, b)
  {
    if |a| > 0 {
      assert (a + b)[1..] == a[1..] + b;
      CountConcat(c, a[1..], b);
    } else {
      assert a + b == b;
    }
  }

  /** Decimal digits contain no character other than `0`..`9`. */
  lemma DecimalCount(c: char, n: nat)
    requires !('0' <= c <= '9')
    ensures Count(c, Decimal(n)) == 0
  {
  }

  /** `a` is a prefix of `b`. */
  predicate IsPrefix(a: string, b: string) {
    |a| <= |b| && b[..|a|] == a
  }

  /** Python's `md = ""; for i, x in enumerate(xs, 1): md += render(i, x)`:
      the renderings of the elements, numbered from 1, appended in order. */
  function Numbered<T>(xs: seq<T>, render: (nat, T) -> string): string {
    if |xs| == 0 then "" else Numbered(xs[..|xs| - 1], render) + render(|xs|, xs[|xs| - 1])
  }

  /** The rendering of a prefix of the elements is a prefix of the whole. */
  lemma {:induction false} NumberedPrefix<T>(xs: seq<T>, render: (nat, T) -> string, k: nat)
    requires k <= |xs|
    ensures IsPrefix(Numbered(xs[..k], render), Numbered(xs, render))
  {
    if k < |xs| {
      var init := xs[..|xs| - 1];
      NumberedPrefix(init, render, k);
      assert init[..k] == xs[..k];
    } else {
      assert xs[..k] == xs;
    }
  }

  /** Element `k` (from 0) is rendered with number `k + 1`, right after the
      renderings of the elements before it. */
  lemma NumberedAt<T>(xs: seq<T>, render: (nat, T) -> string, k: nat)
    requires k < |xs|
    ensures IsPrefix(Numbered(xs[..k], render) + render(k + 1, xs[k]), Numbered(xs, render))
  {
    var upto := xs[..k + 1];
    assert upto[..k] == xs[..k] && upto[k] == xs[k];
    NumberedPrefix(xs, render, k + 1);
  }

  /** When every rendering holds `m` copies of `c`, the whole holds `m`
      per element. */
  lemma {:induction false} NumberedCount<T>(c: char, xs: seq<T>, render: (nat, T) -> string, m: nat)
    requires forall k :: 0 <= k < |xs| ==> Count(c, render(k + 1, xs[k])) == m
    ensures Count(c, Numbered(xs, render)) == m * |xs|
  {
    if |xs| > 0 {
      var init := xs[..|xs| - 1];
      forall k | 0 <= k < |init|
        ensures Count(c, render(k + 1, init[k])) == m
      {
        assert init[k] == xs[k];
      }
      NumberedCount(c, init, render, m);
      CountConcat(c, Numbered(init, render), render(|xs|, xs[|xs| - 1]));
      MulSucc(m, |init|);
    }
  }

  lemma MulSucc(m: nat, n: nat)
    ensures m * (n + 1) == m * n + m
  {
  }

  /** A prefix stays a prefix after putting the same string in front. */
  lemma PrefixAfter(h: string, a: string, b: string)
    requires IsPrefix(a, b)
    ensures IsPrefix(h + a, h + b)
  {
    assert (h + b)[..|h| + |a|] == h + b[..|a|];
  }
}

=== FILE: wrappers.dfy ===
/** Optional values and success-or-error outcomes, used for Python's
    missing dictionary keys, `None` returns and raised exceptions. */
module Wrappers {

  datatype Option<+T> = None | Some(value: T) {

    /** The wrapped value, or `default` when absent (Python's `dict.get(key, default)`). */
    function GetOr(default: T): (r: T)
      ensures Some? ==> r == value
      ensures None? ==> r == default
    {
      match this
      case Some(v) => v
      case None => default
    }
  }

  datatype Result<+T, +E> = Success(value: T) | Failure(error: E)
}
